=== FILE: README.md ===
# ETag-driven image reload (react-native-fast-image, Android) in Dafny

This project models the Android side of the fast-image view's cache-coherent
reload protocol and proves properties of the model:

- **Validator decision** (`EtagRequester.requestEtag`): the HEAD request with
  an optional `If-None-Match` header (section 3.2 of RFC 7232), and the
  classification of its completion into exactly one of `onEtag(x)` /
  `onError(msg)`. A 304 (section 4.1 of RFC 7232) falls in the "at most 308,
  not 200" branch and reuses the previous ETag.
- **Validator-store refresh** (the interceptor in `SharedOkHttpClient`): every
  response whose `etag` header is present and *different* from the stored one
  overwrites the URL's entry; plus the lazily created singleton client.
- **Reload orchestration and progress fan-out** (`FastImageViewManager`):
  source validation in `setSrc`, the `VIEWS_FOR_URLS` registry, the plan of
  Glide requests issued by `load`, `loadImage` and `loadImageWithSignature`
  (cache-only preview signed with the previous ETag; then clear; then a main
  request that skips the memory cache, has a cache-only thumbnail signed with
  the previous ETag, and is signed with the resolved ETag), `onDropViewInstance`,
  `onProgress` and `receiveCommand`.

Every operation is a pure function. State (the registry, the ETag store, the
view's fields) goes in and comes out; what the code does to Glide, OkHttp and
the JS event emitter comes out as a log of `Action`s (request descriptors and
UI events). The asynchronous ETag callback is a separate step: `Load` returns
a `Pending` continuation, and `ReloadCycle.Finish` completes it with a
`Completion` given as a parameter.

Modules: `Wrappers` (Option/Result), `JavaLang` (`String.trim`, null
concatenation, the `(int)` cast), `Decimal` (Java's rendering of an `int`, and
a parser that reads the text back), `Http`, `EtagStore` (the ObjectBox URL→ETag box as a
map), `SharedClient`, `EtagRequester`, `ViewRegistry`, `ViewManager`, and
`ReloadCycle` (the parts composed into whole cycles, with end-to-end
cycles for a 304, a 200 with a new ETag and a transport failure, and
multi-view progress, drop and rebind scenarios).

Where the code differs from its own comments or from the protocol's evident intent, the model follows the code:

- The store is rewritten on a *different* ETag, not only on a newer one.
- `requestEtag`'s doc comment says no callback fires on failure or when the
  ETag is unchanged. The code always fires exactly one callback.
- `load` never removes a view from the list of the key it loaded before, so a
  rebound view keeps receiving the old URL's progress events
  (`ReloadCycle.RebindKeepsOldSubscription`).
- `onDropViewInstance` deregisters under `glideUrl.toString()`, while `load`
  registers under `glideUrl.toStringUrl()`. The two are independent fields of
  `GlideUrl` here, because Glide's code is not part of this model. When they
  differ, the dropped view stays registered
  (`ReloadCycle.DropUnderOtherKeyKeepsProgress`).
- Every status at most 308 other than 200 keeps the previous ETag. This
  includes 1xx, 204 and 206 as well as 3xx. A 200 without an `etag` header
  makes the final load unsigned.
- `receiveCommand` reloads through `load` directly, so it skips `setSrc`'s
  source checks.

## Model

| member | source | states |
|---|---|---|
| JavaLang.TrimStart | android/src/main/java/com/dylanvann/fastimage/FastImageViewManager.java:327-329 | the result is the suffix of the input left after dropping leading characters at or below U+0020 (all dropped characters are such, the first kept one is not) |
| JavaLang.TrimEnd | android/src/main/java/com/dylanvann/fastimage/FastImageViewManager.java:327-329 | the result is the prefix left after dropping trailing characters at or below U+0020, symmetrically |
| JavaLang.Trim | android/src/main/java/com/dylanvann/fastimage/FastImageViewManager.java:327-329 | `trim()` returns the substring of the input between a leading and a trailing run of characters at or below U+0020, and the result neither starts nor ends with such a character |
| JavaLang.TrimEmptyIffAllTrimmable | android/src/main/java/com/dylanvann/fastimage/FastImageViewManager.java:327-329 | `trim().isEmpty()` holds exactly when every character is at or below U+0020 |
| JavaLang.IsNullOrEmptyMeansBlank | android/src/main/java/com/dylanvann/fastimage/FastImageViewManager.java:327-329 | `isNullOrEmpty(url)` holds exactly for null or all-blank strings |
| JavaLang.LongToInt | android/src/main/java/com/dylanvann/fastimage/FastImageViewManager.java:312-313 | the `(int)` cast of a long lands in the int range, is congruent to its input modulo 2^32, and is the identity on int-range values |
| Decimal.IntToString | android/src/main/java/com/dylanvann/fastimage/custom/EtagRequester.java:53 | Java's rendering of an int: a minus sign exactly for negatives, then a non-empty run of digits with no leading zero (and never "-0") |
| Decimal.IntToStringRoundTrip | android/src/main/java/com/dylanvann/fastimage/custom/EtagRequester.java:53 | the decimal text Java appends for an int parses back to the same int |
| Decimal.IntToStringInjective | android/src/main/java/com/dylanvann/fastimage/FastImageViewManager.java:393-396 | distinct ints render to distinct texts, so a message names its code or command id unambiguously |
| EtagStore.GetEtagByUrl | android/src/main/java/com/dylanvann/fastimage/custom/SharedOkHttpClient.java:36 | the lookup yields an ETag exactly when the URL has an entry, and then that entry |
| EtagStore.PutOrUpdateEtag | android/src/main/java/com/dylanvann/fastimage/custom/SharedOkHttpClient.java:42 | after a put the URL maps to the new ETag and every other URL's entry is unchanged |
| SharedClient.Intercept | android/src/main/java/com/dylanvann/fastimage/custom/SharedOkHttpClient.java:27-46 | the request is forwarded untouched, the chain's response is returned untouched, the store gets the response ETag when it is present and differs from the stored one (also when nothing is stored), is not written otherwise, and no other URL changes |
| SharedClient.InterceptStoresResponseEtag | android/src/main/java/com/dylanvann/fastimage/custom/SharedOkHttpClient.java:35-43 | after any response the stored ETag for the URL is the response's ETag if it had one, else the old entry |
| SharedClient.InterceptIdempotent | android/src/main/java/com/dylanvann/fastimage/custom/SharedOkHttpClient.java:39-43 | passing the same exchange through the interceptor twice leaves the store as once |
| SharedClient.NewClient | android/src/main/java/com/dylanvann/fastimage/custom/SharedOkHttpClient.java:20-25 | the constructor's HTTP cache lives in `http_cache` under the context's cache directory and is capped at 50 MiB |
| SharedClient.GetInstance | android/src/main/java/com/dylanvann/fastimage/custom/SharedOkHttpClient.java:50-55 | an existing instance is returned whatever the context; otherwise a client caching under the context's `http_cache` directory is created and kept; a null context with no instance throws |
| SharedClient.GetInstanceCreatesOnce | android/src/main/java/com/dylanvann/fastimage/custom/SharedOkHttpClient.java:50-55 | over any run of calls, once a client is returned every later call returns that same client, and an existing instance is what every call returns |
| EtagRequester.BuildRequest | android/src/main/java/com/dylanvann/fastimage/custom/EtagRequester.java:26-32 | the request is a HEAD of the URL whose `If-None-Match` header is present exactly when a previous ETag exists and then carries it; there is no other header |
| JavaLang.ValueOf | android/src/main/java/com/dylanvann/fastimage/custom/EtagRequester.java:41 | string concatenation renders a present string as itself and a null one as "null" |
| EtagRequester.OnComplete | android/src/main/java/com/dylanvann/fastimage/custom/EtagRequester.java:34-57 | a transport failure reports an error (with the exception's message, or "null") only without a previous ETag and otherwise passes the previous ETag on; a 200 passes on the response ETag, possibly none; a status above 308 is an error whose message decodes back to the status; any other status passes on the previous ETag |
| EtagRequester.OnErrorExactlyWhen | android/src/main/java/com/dylanvann/fastimage/custom/EtagRequester.java:40-55 | `onError` fires exactly for a failure with no previous ETag or a status above 308 |
| ViewRegistry.Register | android/src/main/java/com/dylanvann/fastimage/FastImageViewManager.java:122-128 | after registration the view is listed under the key exactly once (in a valid registry), earlier entries keep their order, an already-listed view leaves the registry unchanged, and other keys are untouched |
| ViewRegistry.RegisterIdempotent | android/src/main/java/com/dylanvann/fastimage/FastImageViewManager.java:122-128 | registering the same view under the same key twice equals registering once |
| ViewRegistry.RegisterSubscribers | android/src/main/java/com/dylanvann/fastimage/FastImageViewManager.java:122-128 | registration adds exactly the view to the key's subscriber set |
| ViewRegistry.RemoveFirst | android/src/main/java/com/dylanvann/fastimage/FastImageViewManager.java:287 | `List.remove(Object)` returns the list unchanged when the view is absent, and otherwise a list one shorter with one fewer occurrence of the view and every other view's count kept |
| ViewRegistry.RemoveFirstSplice | android/src/main/java/com/dylanvann/fastimage/FastImageViewManager.java:287 | when the view is listed, the result is exactly the list with its first occurrence cut out, the views before and after it in order |
| ViewRegistry.RemoveFirstNoDuplicates | android/src/main/java/com/dylanvann/fastimage/FastImageViewManager.java:287 | removing from a duplicate-free list leaves it duplicate-free and without the view |
| ViewRegistry.Drop | android/src/main/java/com/dylanvann/fastimage/FastImageViewManager.java:285-289 | dropping leaves under the key exactly what `List.remove` leaves, in order, removes the view from the key's subscribers, prunes the key when its list empties, keeps the registry valid and leaves other keys unchanged |
| ViewRegistry.DropIdempotent | android/src/main/java/com/dylanvann/fastimage/FastImageViewManager.java:285-289 | dropping the same view twice is the same as dropping it once |
| ViewManager.ClearView | android/src/main/java/com/dylanvann/fastimage/FastImageViewManager.java:400-404 | the view's requests are cleared exactly when a request manager exists and the view's tag is a Glide request |
| ViewManager.ClearMissing | android/src/main/java/com/dylanvann/fastimage/FastImageViewManager.java:76-86 | the missing-uri branch sends no event and issues no load or ETag request, and ends by clearing the image |
| ViewManager.RejectInvalid | android/src/main/java/com/dylanvann/fastimage/FastImageViewManager.java:89-107 | the empty-uri branch sends one error event first, whose message starts with "Invalid source prop:", sends no other event, issues no load, and ends by clearing the image |
| ViewManager.SetSrc | android/src/main/java/com/dylanvann/fastimage/FastImageViewManager.java:72-111 | the source is always stored on the view; a missing or blank uri and an empty converted uri leave the registry alone and issue nothing (as above); any other source is loaded |
| ViewManager.MissingUriHandledAlike | android/src/main/java/com/dylanvann/fastimage/FastImageViewManager.java:76-86 | a null source, a source without "uri", and a null or blank uri give identical actions and state |
| ViewManager.MissingUriMeansBlank | android/src/main/java/com/dylanvann/fastimage/FastImageViewManager.java:76 | the missing-uri guard holds exactly for no source, no "uri" key, a null uri or an all-blank uri |
| ViewManager.DirectRequest | android/src/main/java/com/dylanvann/fastimage/FastImageViewManager.java:139-149 | the direct load uses the source's load model, applies the converter's options, is unsigned, neither cache-only nor memory-cache-skipping, has no thumbnail and listens under the key |
| ViewManager.Load | android/src/main/java/com/dylanvann/fastimage/FastImageViewManager.java:113-155 | the view records its URL and is registered under `toStringUrl()`; exactly one load-start is emitted, before any request; without a request manager nothing is loaded; a non-"http" URL gets one direct load and no ETag request; an "http" URL ends with the ETag request conditioned on the stored ETag and leaves the matching continuation |
| ViewManager.LoadImage | android/src/main/java/com/dylanvann/fastimage/FastImageViewManager.java:162-195 | a cache-only preview signed with the stored ETag precedes the ETag request exactly when an ETag is stored and a request manager exists; the continuation captures that same previous ETag |
| ViewManager.Reconcile | android/src/main/java/com/dylanvann/fastimage/FastImageViewManager.java:205-256 | with a request manager, the view is cleared and then loaded with the memory cache skipped, signed iff a signature is given, with a cache-only thumbnail signed with the previous signature iff there is one, and a listener iff a key is given; the thumbnail carries no listener and no options; without one nothing happens |
| ViewManager.Resume | android/src/main/java/com/dylanvann/fastimage/FastImageViewManager.java:182-194 | `onEtag(e)` reconciles with signature `e` over the previous ETag, `onError` reconciles with the previous ETag for both, and neither sends an event |
| ViewManager.OnDropViewInstance | android/src/main/java/com/dylanvann/fastimage/FastImageViewManager.java:277-293 | the view is cleared; with a URL it is forgotten and removed under `toString()` by `List.remove`, the other views kept in order, its key pruned when empty, other keys unchanged |
| ViewManager.ProgressEvents | android/src/main/java/com/dylanvann/fastimage/FastImageViewManager.java:310-318 | one progress event per listed view, in list order |
| ViewManager.OnProgress | android/src/main/java/com/dylanvann/fastimage/FastImageViewManager.java:306-320 | each view listed under the key gets one progress event with the int-narrowed byte counts; an absent key gets none |
| ViewManager.OnProgressReachesEachSubscriberOnce | android/src/main/java/com/dylanvann/fastimage/FastImageViewManager.java:306-320 | in a valid registry, a subscriber of the key receives exactly one progress event and any other view none |
| ViewManager.ReceiveCommand | android/src/main/java/com/dylanvann/fastimage/FastImageViewManager.java:383-398 | command 1 reloads the current source when there is one and otherwise does nothing; any other id throws with a message naming that id |
| ViewManager.CommandsMap | android/src/main/java/com/dylanvann/fastimage/FastImageViewManager.java:373-381 | the command map advertises exactly one command, `forceRefreshImage`, with id 1 |
| ViewManager.CommandsMapMatchesReceiveCommand | android/src/main/java/com/dylanvann/fastimage/FastImageViewManager.java:373-398 | an id is accepted exactly when `getCommandsMap` advertises it |
| ReloadCycle.AnswerEtagRequest | android/src/main/java/com/dylanvann/fastimage/custom/EtagRequester.java:25-57 | the HEAD response passes the interceptor before the callback, so a returned ETag is stored when the callback fires; a failure leaves the store unchanged |
| ReloadCycle.Finish | android/src/main/java/com/dylanvann/fastimage/FastImageViewManager.java:182-194 | completing a pending ETag request only appends to the log and keeps view and registry |
| ReloadCycle.CycleEndsWithReconcile | android/src/main/java/com/dylanvann/fastimage/FastImageViewManager.java:162-256 | a remote cycle's log has exactly five entries, or six with a stored ETag (so one ETag request and no other image load); it ends with a clear and a load signed with the 200 response's ETag or else the previous ETag, with the previous ETag's cached copy as thumbnail; a failed validation never aborts the load |
| ReloadCycle.PreviewPrecedesValidation | android/src/main/java/com/dylanvann/fastimage/FastImageViewManager.java:130-182 | load-start comes first; with a stored ETag the cache-only preview signed with it comes right before the ETag request |
| ReloadCycle.RemoteCycleEmitsOnlyLoadStart | android/src/main/java/com/dylanvann/fastimage/FastImageViewManager.java:133-256 | a remote cycle sends exactly one event, load-start, whatever the validation outcome |
| ReloadCycle.NotModifiedKeepsSignature | android/src/main/java/com/dylanvann/fastimage/custom/EtagRequester.java:54-55 | on a 304 carrying no ETag or the stored one, the preview and the final load are both signed with the stored ETag and the store is not written (a 304 with another ETag does write it: see NotModifiedWithOtherEtagWritesStore) |
| ReloadCycle.ChangedSwapsSignature | android/src/main/java/com/dylanvann/fastimage/custom/EtagRequester.java:49-51 | on a 200 with a new ETag the store already holds it at reconcile time, the final load is signed with it, and the thumbnail keeps the old one |
| ReloadCycle.FailureWithoutEtagStillLoads | android/src/main/java/com/dylanvann/fastimage/custom/EtagRequester.java:40-41 | with no stored ETag a transport failure takes `onError`, yet an unsigned load without thumbnail is still issued, the store is untouched and no error event is sent |
| ReloadCycle.LoadAll | android/src/main/java/com/dylanvann/fastimage/FastImageViewManager.java:120-128 | loading several views with one source adds exactly those views to the key's subscribers and keeps the registry valid |
| ReloadCycle.SharedUrlFanOut | android/src/main/java/com/dylanvann/fastimage/FastImageViewManager.java:306-320 | every view bound to a URL receives each progress notification for it exactly once |
| ReloadCycle.DropAfterLoadStopsProgress | android/src/main/java/com/dylanvann/fastimage/FastImageViewManager.java:282-289 | when `toString()` equals `toStringUrl()`, a dropped view gets no more progress events for its URL |
| ReloadCycle.DropUnderOtherKeyKeepsProgress | android/src/main/java/com/dylanvann/fastimage/FastImageViewManager.java:283 | when `toString()` differs from `toStringUrl()`, a dropped view still receives its URL's progress events |
| ReloadCycle.StaleCallbackStillLoadsOldUrl | android/src/main/java/com/dylanvann/fastimage/FastImageViewManager.java:182-194 | a callback pending from a load of one URL still clears the view and loads that URL into it after the view was loaded with another source |
| ReloadCycle.NotModifiedWithOtherEtagWritesStore | android/src/main/java/com/dylanvann/fastimage/custom/SharedOkHttpClient.java:40-43 | a 304 carrying an ETag other than the stored one writes it into the store, while the final load stays signed with the old ETag |
| ReloadCycle.RebindKeepsOldSubscription | android/src/main/java/com/dylanvann/fastimage/FastImageViewManager.java:122-128 | after a view is loaded with a second URL it still receives the first URL's progress events |

## Left out

- Glide and OkHttp internals: decoding, disk and HTTP caching, eviction within the 50 MiB cache budget and network I/O. Glide requests are logged as descriptors and never run.
- Threading: `enqueue` worker callbacks and `runOnUiThread` are not modelled. The callback is one later step (`ReloadCycle.Finish`), and a null activity in `getActivityFromContext` is not modelled.
- `WeakHashMap` garbage collection: the registry is an ordinary map.
- Android and React plumbing: `isValidContextForGlide`, `getActivityFromContext`, `isActivityDestroyed`, `createViewInstance` (it only sets whether a request manager exists, which is a state field here), the event-emitter bridge, `setTintColor`, `setResizeMode`, `getExportedCustomDirectEventTypeConstants`, `getGranularityPercentage`.
- `FastImageViewConverter`, `FastImageSource`, the ObjectBox store and `FastImageOkHttpProgressGlideModule` are not part of this model. The converter is a pair of abstract functions. The store is a map. The progress module's `expect` and `forget` only appear in the log.
- `FastImageRequestListener` is not part of this model, so the load, load-end and error events sent when a Glide request finishes are left out.
- `FastImageViewModule` (`preload`, `preloadDimension`, `clearMemoryCache`, `clearDiskCache`) is left out: each is a thin pass-through to Glide.
- The URL the interceptor keys on (`request.url().toString()`) is taken to be the string the HEAD request was built from. OkHttp's URL canonicalisation is left out.
- The `etag` header lookup is taken as given. OkHttp's case-insensitive header matching is left out.
- `EtagRequester` calls `getInstance(null)`, which throws if no client exists yet. The composed cycle assumes the client already exists. `GetInstance` models the throw on its own.
- Request options are opaque. `loadImage` and `loadImageWithSignature` apply them last (after `onlyRetrieveFromCache`, `skipMemoryCache` and `signature`), so they could override those settings. The request descriptors record the builder calls, not the request Glide finally runs.
- Exceptions thrown while building the HEAD request are not modelled. `Request.Builder.url` throws for a key that starts with "http" but is not an http(s) URL, such as "httpfoo". `addHeader` throws for an ETag with characters outside printable ASCII. The model issues the ETag request and leaves a continuation for every key starting with "http".
- The view's tag is read by `clearView` but its update by Glide's `clear`/`into` is not modelled.
- A non-string `uri` entry (for which `getString` throws) is not modelled. The `uri` entry is a string or null.
- `load` always passes non-null options. The nullable-options branches of `loadImage` and `loadImageWithSignature` are kept as `Option` fields.
- EtagRequester.OnComplete: "exactly once" is represented by returning one callback value. Repeated or missing invocations cannot be expressed in a pure function.

=== FILE: decimal.dfy ===
/** Java's decimal rendering of an `int` (as used by string concatenation
    and `String.format("%s", ...)`), and a parser that reads the text back. */
module Decimal {
  import opened Wrappers

  predicate IsDigit(c: char) {
    '0' <= c <= '9'
  }

  predicate AllDigits(s: string) {
    forall i :: 0 <= i < |s| ==> IsDigit(s[i])
  }

  function DigitChar(d: nat): (c: char)
    requires d < 10
    ensures IsDigit(c)
  {
    (d + 48) as char
  }

  function DigitValue(c: char): (d: nat)
    requires IsDigit(c)
    ensures d < 10
  {
    c as int - 48
  }

  /** Canonical decimal digits of `n`: never empty, no leading zero. */
  function NatToString(n: nat): (s: string)
    ensures |s| > 0 && AllDigits(s)
    ensures |s| > 1 ==> s[0] != '0'
    decreases n
  {
    if n < 10 then [DigitChar(n)] else NatToString(n / 10) + [DigitChar(n % 10)]
  }

  /** `Integer.toString(i)`: a minus sign for negative values, then digits. */
  function IntToString(i: int): (s: string)
    ensures |s| > 0
    ensures i < 0 <==> s[0] == '-'
    ensures var digits := if i < 0 then s[1..] else s;
      && |digits| > 0 && AllDigits(digits)
      && (|digits| > 1 ==> digits[0] != '0')
      && (i < 0 ==> digits != "0")
  {
    if i < 0 then "-" + NatToString(-i) else NatToString(i)
  }

  /** The value of a string of digits, most significant first. */
  function ParseNat(s: string): nat
    requires AllDigits(s)
  {
    if |s| == 0 then 0 else ParseNat(s[..|s| - 1]) * 10 + DigitValue(s[|s| - 1])
  }

  /** Reads back an optionally signed decimal integer; `None` if malformed. */
  function ParseInt(s: string): Option<int> {
    if |s| > 1 && s[0] == '-' && AllDigits(s[1..]) then
      var magnitude: int := ParseNat(s[1..]);
      Some(-magnitude)
    else if |s| > 0 && AllDigits(s) then Some(ParseNat(s))
    else None
  }

  lemma {:induction false} ParseNatToString(n: nat)
    ensures ParseNat(NatToString(n)) == n
    decreases n
  {
    if n >= 10 {
      var s := NatToString(n);
      assert s[..|s| - 1] == NatToString(n / 10);
      ParseNatToString(n / 10);
      assert DigitValue(DigitChar(n % 10)) == n % 10;
    } else {
      assert DigitValue(DigitChar(n)) == n;
    }
  }

  /** Rendering an `int` loses nothing: it parses back to the same value. */
  lemma IntToStringRoundTrip(i: int)
    ensures ParseInt(IntToString(i)) == Some(i)
  {
    if i < 0 {
      var s := IntToString(i);
      assert s[1..] == NatToString(-i);
      ParseNatToString(-i);
    } else {
      ParseNatToString(i);
    }
  }

  /** Distinct values render to distinct strings. */
  lemma IntToStringInjective(i: int, j: int)
    requires IntToString(i) == IntToString(j)
    ensures i == j
  {
    IntToStringRoundTrip(i);
    IntToStringRoundTrip(j);
  }
}

=== FILE: etag_requester.dfy ===
/** The conditional HEAD request that learns whether an image URL has a new
    ETag, and the classification of its completion into exactly one of the
    two callbacks `onEtag` / `onError`. */
module EtagRequester {
  import opened Wrappers
  import opened Http
  import Decimal
  import JavaLang

  /** The conditional header of section 3.2 of RFC 7232. */
  const IfNoneMatch := "If-None-Match"
  const Head := "HEAD"
  const FailurePrefix := "Failure when requesting etag: "
  const UnexpectedCodePrefix := "Unexpected http code: "

  /** How the enqueued call finishes: `onFailure` with the IOException's
      message (which may be null), or `onResponse`. */
  datatype Completion = TransportFailure(ioMessage: Option<string>) | Responded(response: HttpResponse)

  /** The one callback a completion invokes. `OnEtag(None)` is `onEtag(null)`. */
  datatype Callback = OnEtag(etag: Option<string>) | OnError(message: string)

  /** The request `requestEtag` builds. */
  function BuildRequest(url: string, prevEtag: Option<string>): (r: HttpRequest)
    ensures r.url == url && r.verb == Head
    ensures HeaderValue(r.headers, IfNoneMatch) == prevEtag
    ensures |r.headers| == (if prevEtag.Some? then 1 else 0)
  {
    var headers := if prevEtag.Some? then [Header(IfNoneMatch, prevEtag.value)] else [];
    HttpRequest(url, Head, headers)
  }

  /** The status code an "Unexpected http code" message reports, if the
      message is one. */
  function ReportedCode(message: string): Option<int> {
    if UnexpectedCodePrefix <= message then Decimal.ParseInt(message[|UnexpectedCodePrefix|..]) else None
  }

  /** The callback the `onFailure` / `onResponse` handlers invoke. A
      transport failure is reported only when there is no previous ETag to
      fall back to; a 200 passes on the response's ETag (possibly null); a
      status above 308 is an error naming the status; every other status
      (304 included) keeps the previous ETag. */
  function OnComplete(prevEtag: Option<string>, c: Completion): (cb: Callback)
    ensures c.TransportFailure? ==> (cb.OnError? <==> prevEtag.None?)
    ensures c.TransportFailure? && prevEtag.Some? ==> cb == OnEtag(prevEtag)
    ensures c.TransportFailure? && prevEtag.None? ==>
      cb == OnError(FailurePrefix + JavaLang.ValueOf(c.ioMessage))
    ensures c.Responded? && c.response.code == 200 ==> cb == OnEtag(c.response.etag)
    ensures c.Responded? && c.response.code > 308 ==>
      cb.OnError? && ReportedCode(cb.message) == Some(c.response.code)
    ensures c.Responded? && c.response.code != 200 && c.response.code <= 308 ==> cb == OnEtag(prevEtag)
  {
    match c
    case TransportFailure(ioMessage) =>
      if prevEtag.None? then OnError(FailurePrefix + JavaLang.ValueOf(ioMessage))
      else OnEtag(prevEtag)
    case Responded(response) =>
      if response.code == 200 then OnEtag(response.etag)
      else if response.code > 308 then
        var message := UnexpectedCodePrefix + Decimal.IntToString(response.code);
        Decimal.IntToStringRoundTrip(response.code);
        assert message[|UnexpectedCodePrefix|..] == Decimal.IntToString(response.code);
        OnError(message)
      else OnEtag(prevEtag)
  }

  /** `onError` fires only when the response is an unexpected status or the
      transport failed with nothing cached to fall back to; in every other
      case `onEtag` fires. */
  lemma OnErrorExactlyWhen(prevEtag: Option<string>, c: Completion)
    ensures OnComplete(prevEtag, c).OnError? <==>
      (c.TransportFailure? && prevEtag.None?) || (c.Responded? && c.response.code > 308)
  {
  }
}

=== FILE: etag_store.dfy ===
/** The persistent URL -> ETag store (an ObjectBox box in the app), seen
    through its two operations `getEtagByUrl` and `putOrUpdateEtag`. */
module EtagStore {
  import opened Wrappers

  type Store = map<string, string>

  /** A missing URL is an ordinary miss, never an error. */
  function GetEtagByUrl(store: Store, url: string): (r: Option<string>)
    ensures r.Some? <==> url in store
    ensures r.Some? ==> r.value == store[url]
  {
    if url in store then Some(store[url]) else None
  }

  /** Last write wins; nothing but `url` changes. */
  function PutOrUpdateEtag(store: Store, url: string, etag: string): (r: Store)
    ensures GetEtagByUrl(r, url) == Some(etag)
    ensures forall u :: u != url ==> GetEtagByUrl(r, u) == GetEtagByUrl(store, u)
    ensures r.Keys == store.Keys + {url}
  {
    store[url := etag]
  }
}

=== FILE: http.dfy ===
/** The slice of an HTTP exchange the reload protocol looks at: a request
    (url, verb, headers) and a response (status code and its `etag`
    header, if any). */
module Http {
  import opened Wrappers

  datatype Header = Header(name: string, value: string)

  datatype HttpRequest = HttpRequest(url: string, verb: string, headers: seq<Header>)

  /** `etag` is the value `response.header("etag")` returns. */
  datatype HttpResponse = HttpResponse(code: int, etag: Option<string>)

  /** The value of the first header called `name`, if one is present. */
  function HeaderValue(headers: seq<Header>, name: string): (r: Option<string>)
    ensures r.None? <==> forall i :: 0 <= i < |headers| ==> headers[i].name != name
    ensures r.Some? ==> exists i :: 0 <= i < |headers| && headers[i] == Header(name, r.value)
  {
    if |headers| == 0 then None
    else if headers[0].name == name then Some(headers[0].value)
    else
      var r := HeaderValue(headers[1..], name);
      assert r.Some? ==> headers[1..][0..] == headers[1..];
      r
  }
}

=== FILE: java_lang.dfy ===
/** The few `java.lang` behaviours the model depends on: `String.trim`,
    string concatenation of a possibly-null reference, and the narrowing
    `(int)` cast from `long`. */
module JavaLang {
  import opened Wrappers

  /** `String.trim` strips every character whose code is at most U+0020. */
  predicate Trimmable(c: char) {
    c <= ' '
  }

  predicate AllTrimmable(s: string) {
    forall i :: 0 <= i < |s| ==> Trimmable(s[i])
  }

  /** Drops the leading trimmable characters: the result is a suffix of `s`
      that starts with a non-trimmable character, and everything dropped
      was trimmable. */
  function TrimStart(s: string): (r: string)
    ensures |r| <= |s| && r == s[|s| - |r|..]
    ensures AllTrimmable(s[..|s| - |r|])
    ensures r == [] || !Trimmable(r[0])
  {
    if |s| > 0 && Trimmable(s[0]) then TrimStart(s[1..]) else s
  }

  /** Drops the trailing trimmable characters: the result is a prefix of `s`
      that ends with a non-trimmable character, and everything dropped was
      trimmable. */
  function TrimEnd(s: string): (r: string)
    ensures |r| <= |s| && r == s[..|r|]
    ensures AllTrimmable(s[|r|..])
    ensures r == [] || !Trimmable(r[|r| - 1])
  {
    if |s| > 0 && Trimmable(s[|s| - 1]) then
      var r := TrimEnd(s[..|s| - 1]);
      assert s[|r|..] == s[..|s| - 1][|r|..] + [s[|s| - 1]];
      r
    else
      s
  }

  /** Java's `String.trim()`. */
  function Trim(s: string): (r: string)
    ensures |r| <= |s|
    ensures r == [] || (!Trimmable(r[0]) && !Trimmable(r[|r| - 1]))
    ensures exists i, j :: 0 <= i <= j <= |s| && r == s[i..j] && AllTrimmable(s[..i]) && AllTrimmable(s[j..])
  {
    var t := TrimStart(s);
    var r := TrimEnd(t);
    var i := |s| - |t|;
    var j := i + |r|;
    assert r == s[i..j];
    assert s[j..] == t[|r|..];
    r
  }

  /** A string trims to nothing exactly when all of it is whitespace or
      control characters. */
  lemma TrimEmptyIffAllTrimmable(s: string)
    ensures Trim(s) == [] <==> AllTrimmable(s)
  {
  }

  /** `url == null || url.trim().isEmpty()`. */
  predicate IsNullOrEmpty(url: Option<string>) {
    url.None? || Trim(url.value) == []
  }

  /** A reference counts as empty when it is null or blank. */
  lemma IsNullOrEmptyMeansBlank(url: Option<string>)
    ensures IsNullOrEmpty(url) <==> (url.None? || AllTrimmable(url.value))
  {
  }

  /** What `"..." + s` appends for a possibly-null `s`. */
  function ValueOf(s: Option<string>): (r: string)
    ensures s.Some? ==> r == s.value
    ensures s.None? ==> r == "null"
  {
    s.GetOr("null")
  }

  const IntMin: int := -0x8000_0000
  const IntMax: int := 0x7FFF_FFFF
  const LongMin: int := -0x8000_0000_0000_0000
  const LongMax: int := 0x7FFF_FFFF_FFFF_FFFF

  predicate IsLong(x: int) {
    LongMin <= x <= LongMax
  }

  /** The `(int)` cast of a `long`: keeps the low 32 bits, two's complement. */
  function LongToInt(x: int): (r: int)
    requires IsLong(x)
    ensures IntMin <= r <= IntMax
    ensures (x - r) % 0x1_0000_0000 == 0
    ensures IntMin <= x <= IntMax ==> r == x
  {
    var low := x % 0x1_0000_0000;
    if low > IntMax then low - 0x1_0000_0000 else low
  }
}

=== FILE: reload_cycle.dfy ===
/** One complete reload cycle, composed from the parts: `setSrc` on the UI
    thread, the HEAD request's completion (whose response first passes the
    shared client's interceptor), the ETag callback, and the reconcile step.
    Also the multi-view and drop scenarios of the progress registry. */
module ReloadCycle {
  import opened Wrappers
  import opened Http
  import opened EtagStore
  import opened SharedClient
  import opened EtagRequester
  import opened ViewRegistry
  import opened ViewManager
  import JavaLang

  datatype Answered = Answered(store: Store, callback: Callback)

  /** The completion of the HEAD request for `url`. A response passes the
      interceptor before `onResponse` runs, so a returned ETag is already in
      the store when the callback fires; a transport failure leaves the
      store alone. */
  function AnswerEtagRequest(store: Store, url: string, prevEtag: Option<string>, c: Completion): (r: Answered)
    ensures r.callback == OnComplete(prevEtag, c)
    ensures c.Responded? && c.response.etag.Some? ==> GetEtagByUrl(r.store, url) == c.response.etag
    ensures c.TransportFailure? || c.response.etag.None? ==> r.store == store
    ensures forall u :: u != url ==> GetEtagByUrl(r.store, u) == GetEtagByUrl(store, u)
  {
    match c
    case TransportFailure(_) => Answered(store, OnComplete(prevEtag, c))
    case Responded(response) =>
      var passed := Intercept(store, BuildRequest(url, prevEtag), _ => response);
      Answered(passed.store, OnComplete(prevEtag, c))
  }

  datatype Cycle = Cycle(view: View, manager: Manager, store: Store, log: seq<Action>)

  /** The part of a cycle after the UI-thread step `s`: if `s` left an ETag
      request waiting, complete it with `c` and run the callback's reconcile
      step; the log only grows. */
  function Finish(s: Step, store: Store, c: Completion): (r: Cycle)
    ensures r.view == s.view && r.manager == s.manager
    ensures |s.log| <= |r.log| && r.log[..|s.log|] == s.log
    ensures s.pending.None? ==> r.log == s.log && r.store == store
  {
    if s.pending.None? then Cycle(s.view, s.manager, store, s.log)
    else
      var p := s.pending.value;
      var answered := AnswerEtagRequest(store, p.url, p.prevEtag, c);
      Cycle(s.view, s.manager, answered.store, s.log + Resume(s.manager, p, answered.callback))
  }

  /** Bind `source` to `view` and, if that issued an ETag request, complete
      it with `c` and run the callback's reconcile step. */
  function BindAndValidate(m: Manager, conv: Converter, store: Store, view: View, source: Option<Source>, c: Completion): Cycle {
    Finish(SetSrc(m, conv, store, view, source), store, c)
  }

  /** The binding goes through the ETag protocol: a request manager exists,
      the source has a usable uri, and its key `u` starts with "http". */
  predicate RemoteBinding(m: Manager, conv: Converter, source: Option<Source>, u: string) {
    && m.hasRequestManager
    && !MissingUri(source)
    && |conv.imageSource(source.value).uri| > 0
    && conv.imageSource(source.value).glideUrl.stringUrl == u
    && HttpPrefix <= u
  }

  /** The signature the final load carries: the response's ETag (possibly
      none) after a 200, the previous ETag after anything else, failures
      included. */
  function FinalSignature(prevEtag: Option<string>, c: Completion): Option<string> {
    if c.Responded? && c.response.code == 200 then c.response.etag else prevEtag
  }

  /** Whatever the validation outcome, the cycle ends with a clear and a
      reconcile load of `u` whose signature is `FinalSignature` and whose
      thumbnail is the previous ETag's cached copy: a failed validation
      never aborts the load. */
  lemma CycleEndsWithReconcile(m: Manager, conv: Converter, store: Store, view: View,
                                                 source: Option<Source>, u: string, c: Completion)
    requires RemoteBinding(m, conv, source, u)
    ensures var r := BindAndValidate(m, conv, store, view, source, c);
      var prev := GetEtagByUrl(store, u);
      && |r.log| == (if prev.Some? then 6 else 5)
      && r.log[|r.log| - 2] == ClearRequests(view.id)
      && r.log[|r.log| - 1].Into? && r.log[|r.log| - 1].view == view.id
      && IsReconcileRequest(r.log[|r.log| - 1].request, u, FinalSignature(prev, c), prev,
                            Some(conv.options(source.value, conv.imageSource(source.value))), Some(u))
  {
  }

  /** With a stored ETag, the cache-only preview signed with it is issued
      before the ETag request, right after load-start; without one, the
      ETag request follows load-start directly. */
  lemma PreviewPrecedesValidation(m: Manager, conv: Converter, store: Store, view: View,
                                                    source: Option<Source>, u: string, c: Completion)
    requires RemoteBinding(m, conv, source, u)
    ensures var r := BindAndValidate(m, conv, store, view, source, c);
      var prev := GetEtagByUrl(store, u);
      && |r.log| >= 5
      && r.log[0] == Expect(u) && r.log[1] == Emit(view.id, LoadStart)
      && (prev.Some? ==>
            && r.log[2].Into? && IsCacheOnly(r.log[2].request, u, prev.value)
            && r.log[3] == RequestEtag(u, prev))
      && (prev.None? ==> r.log[2] == RequestEtag(u, None))
  {
  }

  /** The only event a remote cycle sends is the single load-start: no
      validation outcome surfaces as an error event. */
  lemma RemoteCycleEmitsOnlyLoadStart(m: Manager, conv: Converter, store: Store, view: View,
                                                        source: Option<Source>, u: string, c: Completion)
    requires RemoteBinding(m, conv, source, u)
    ensures var r := BindAndValidate(m, conv, store, view, source, c);
      && r.log[1] == Emit(view.id, LoadStart)
      && forall i :: 0 <= i < |r.log| && i != 1 ==> !r.log[i].Emit?
  {
  }

  /** Store `{u: v}`, the server answers 304 (with no ETag or the same one):
      the preview and the final load are both signed `v`, and the store is
      not written. */
  lemma NotModifiedKeepsSignature(m: Manager, conv: Converter, store: Store, view: View,
                                  source: Option<Source>, u: string, v: string, e: Option<string>)
    requires RemoteBinding(m, conv, source, u)
    requires GetEtagByUrl(store, u) == Some(v)
    requires e.None? || e == Some(v)
    ensures var r := BindAndValidate(m, conv, store, view, source, Responded(HttpResponse(304, e)));
      && r.store == store
      && r.log[2].Into? && IsCacheOnly(r.log[2].request, u, v)
      && r.log[|r.log| - 1].Into?
      && r.log[|r.log| - 1].request.signature == Some(v)
      && r.log[|r.log| - 1].request.thumbnail.Some?
      && IsCacheOnly(r.log[|r.log| - 1].request.thumbnail.value, u, v)
  {
  }

  /** Store `{u: v1}`, the server answers 200 with `v2`: the store holds `v2`
      when the reconcile load is issued, the final load is signed `v2`, and
      its thumbnail is the cached copy signed `v1`. */
  lemma ChangedSwapsSignature(m: Manager, conv: Converter, store: Store, view: View,
                              source: Option<Source>, u: string, v1: string, v2: string)
    requires RemoteBinding(m, conv, source, u)
    requires GetEtagByUrl(store, u) == Some(v1)
    ensures var r := BindAndValidate(m, conv, store, view, source, Responded(HttpResponse(200, Some(v2))));
      && GetEtagByUrl(r.store, u) == Some(v2)
      && r.log[|r.log| - 1].Into?
      && r.log[|r.log| - 1].request.signature == Some(v2)
      && r.log[|r.log| - 1].request.thumbnail.Some?
      && IsCacheOnly(r.log[|r.log| - 1].request.thumbnail.value, u, v1)
  {
  }

  /** No stored ETag and the HEAD request fails in transport: `onError` is
      taken, yet the load still happens, unsigned and without a thumbnail,
      the store is untouched and no error event is sent. */
  lemma FailureWithoutEtagStillLoads(m: Manager, conv: Converter, store: Store, view: View,
                                     source: Option<Source>, u: string, message: Option<string>)
    requires RemoteBinding(m, conv, source, u)
    requires GetEtagByUrl(store, u).None?
    ensures OnComplete(None, TransportFailure(message)).OnError?
    ensures var r := BindAndValidate(m, conv, store, view, source, TransportFailure(message));
      && r.store == store
      && r.log[|r.log| - 1].Into?
      && r.log[|r.log| - 1].request.signature.None?
      && r.log[|r.log| - 1].request.thumbnail.None?
      && forall i :: 0 <= i < |r.log| && r.log[i].Emit? ==> r.log[i].event == LoadStart
  {
    CycleEndsWithReconcile(m, conv, store, view, source, u, TransportFailure(message));
    RemoteCycleEmitsOnlyLoadStart(m, conv, store, view, source, u, TransportFailure(message));
  }

  // ---------------------------------------------------------------------
  // Several views sharing one URL

  function ViewIds(views: seq<View>): set<ViewId> {
    set i | 0 <= i < |views| :: views[i].id
  }

  /** `load` of each view in turn with the same source. */
  function LoadAll(m: Manager, conv: Converter, store: Store, views: seq<View>, source: Source): (r: Manager)
    ensures var key := conv.imageSource(source).glideUrl.stringUrl;
      Subscribers(r.registry, key) == Subscribers(m.registry, key) + ViewIds(views)
    ensures Valid(m.registry) ==> Valid(r.registry)
    decreases |views|
  {
    if |views| == 0 then m
    else
      var key := conv.imageSource(source).glideUrl.stringUrl;
      var next := Load(m, conv, store, views[0], source).manager;
      RegisterSubscribers(m.registry, key, views[0].id);
      assert ViewIds(views) == {views[0].id} + ViewIds(views[1..]) by {
        forall w | w in ViewIds(views)
          ensures w in {views[0].id} + ViewIds(views[1..])
        {
          var i :| 0 <= i < |views| && views[i].id == w;
          if i > 0 { assert views[1..][i - 1].id == w; }
        }
        forall w | w in ViewIds(views[1..])
          ensures w in ViewIds(views)
        {
          var i :| 0 <= i < |views[1..]| && views[1..][i].id == w;
          assert views[i + 1].id == w;
        }
      }
      LoadAll(next, conv, store, views[1..], source)
  }

  /** Every view bound to the same URL receives each progress notification
      for it exactly once, not just the view whose load started the
      transfer. */
  lemma SharedUrlFanOut(m: Manager, conv: Converter, store: Store, views: seq<View>, source: Source,
                        bytesRead: int, expectedLength: int, v: ViewId)
    requires Valid(m.registry)
    requires JavaLang.IsLong(bytesRead) && JavaLang.IsLong(expectedLength)
    requires v in ViewIds(views)
    ensures var key := conv.imageSource(source).glideUrl.stringUrl;
      EventsFor(OnProgress(LoadAll(m, conv, store, views, source), key, bytesRead, expectedLength), v) == 1
  {
    var key := conv.imageSource(source).glideUrl.stringUrl;
    OnProgressReachesEachSubscriberOnce(LoadAll(m, conv, store, views, source), key, bytesRead, expectedLength, v);
  }

  // ---------------------------------------------------------------------
  // Dropping a loaded view

  /** When `toString()` and `toStringUrl()` agree, dropping a loaded view
      stops its progress events for that URL. */
  lemma DropAfterLoadStopsProgress(m: Manager, conv: Converter, store: Store, view: View, source: Source,
                                   bytesRead: int, expectedLength: int)
    requires Valid(m.registry)
    requires JavaLang.IsLong(bytesRead) && JavaLang.IsLong(expectedLength)
    requires conv.imageSource(source).glideUrl.cacheKey == conv.imageSource(source).glideUrl.stringUrl
    ensures var loaded := Load(m, conv, store, view, source);
      var dropped := OnDropViewInstance(loaded.manager, loaded.view);
      var key := conv.imageSource(source).glideUrl.stringUrl;
      EventsFor(OnProgress(dropped.manager, key, bytesRead, expectedLength), view.id) == 0
  {
    var key := conv.imageSource(source).glideUrl.stringUrl;
    var loaded := Load(m, conv, store, view, source);
    var dropped := OnDropViewInstance(loaded.manager, loaded.view);
    OnProgressReachesEachSubscriberOnce(dropped.manager, key, bytesRead, expectedLength, view.id);
  }

  /** When `toString()` differs from `toStringUrl()`, dropping a loaded view
      deregisters under the wrong key: the view is still subscribed under the
      key `load` used and keeps receiving its progress events. */
  lemma DropUnderOtherKeyKeepsProgress(m: Manager, conv: Converter, store: Store, view: View, source: Source,
                                       bytesRead: int, expectedLength: int)
    requires Valid(m.registry)
    requires JavaLang.IsLong(bytesRead) && JavaLang.IsLong(expectedLength)
    requires conv.imageSource(source).glideUrl.cacheKey != conv.imageSource(source).glideUrl.stringUrl
    ensures var loaded := Load(m, conv, store, view, source);
      var dropped := OnDropViewInstance(loaded.manager, loaded.view);
      var key := conv.imageSource(source).glideUrl.stringUrl;
      EventsFor(OnProgress(dropped.manager, key, bytesRead, expectedLength), view.id) == 1
  {
    var key := conv.imageSource(source).glideUrl.stringUrl;
    var loaded := Load(m, conv, store, view, source);
    var dropped := OnDropViewInstance(loaded.manager, loaded.view);
    RegisterSubscribers(m.registry, key, view.id);
    assert Listeners(dropped.manager.registry, key) == Listeners(loaded.manager.registry, key);
    OnProgressReachesEachSubscriberOnce(dropped.manager, key, bytesRead, expectedLength, view.id);
  }

  /** `load` never deregisters a view from the key it loaded before: after
      rebinding from `u1` to another URL, the view still receives `u1`'s
      progress events. */
  lemma RebindKeepsOldSubscription(m: Manager, conv: Converter, store: Store, view: View, s1: Source, s2: Source,
                                   bytesRead: int, expectedLength: int)
    requires Valid(m.registry)
    requires JavaLang.IsLong(bytesRead) && JavaLang.IsLong(expectedLength)
    requires conv.imageSource(s1).glideUrl.stringUrl != conv.imageSource(s2).glideUrl.stringUrl
    ensures var first := Load(m, conv, store, view, s1);
      var second := Load(first.manager, conv, store, first.view, s2);
      var u1 := conv.imageSource(s1).glideUrl.stringUrl;
      EventsFor(OnProgress(second.manager, u1, bytesRead, expectedLength), view.id) == 1
  {
    var u1 := conv.imageSource(s1).glideUrl.stringUrl;
    var first := Load(m, conv, store, view, s1);
    var second := Load(first.manager, conv, store, first.view, s2);
    RegisterSubscribers(m.registry, u1, view.id);
    assert Listeners(second.manager.registry, u1) == Listeners(first.manager.registry, u1);
    OnProgressReachesEachSubscriberOnce(second.manager, u1, bytesRead, expectedLength, view.id);
  }

  /** A callback left pending by a load of `u1` is not cancelled when the
      view is rebound: after the view is loaded with another source, the
      callback still clears the view and loads `u1` into it. */
  lemma StaleCallbackStillLoadsOldUrl(m: Manager, conv: Converter, store: Store, view: View,
                                      s1: Source, s2: Source, cb: Callback)
    requires m.hasRequestManager
    requires HttpPrefix <= conv.imageSource(s1).glideUrl.stringUrl
    ensures var first := Load(m, conv, store, view, s1);
      var second := Load(first.manager, conv, store, first.view, s2);
      var tail := Resume(second.manager, first.pending.value, cb);
      && |tail| == 2 && tail[0] == ClearRequests(view.id)
      && tail[1].Into? && tail[1].view == view.id
      && tail[1].request.model == conv.imageSource(s1).glideUrl.stringUrl
  {
  }

  /** A 304 that carries an ETag other than the stored one writes that ETag
      into the store, while the final load stays signed with the old one. */
  lemma NotModifiedWithOtherEtagWritesStore(m: Manager, conv: Converter, store: Store, view: View,
                                            source: Option<Source>, u: string, v: string, w: string)
    requires RemoteBinding(m, conv, source, u)
    requires GetEtagByUrl(store, u) == Some(v) && w != v
    ensures var r := BindAndValidate(m, conv, store, view, source, Responded(HttpResponse(304, Some(w))));
      && GetEtagByUrl(r.store, u) == Some(w)
      && r.log[|r.log| - 1].Into?
      && r.log[|r.log| - 1].request.signature == Some(v)
  {
  }
}

=== FILE: shared_client.dfy ===
/** The process-wide OkHttp client: its application interceptor, which keeps
    the ETag store in step with every response that passes through it, and
    the lazily created singleton that holds it. */
module SharedClient {
  import opened Wrappers
  import opened Http
  import opened EtagStore

  /** What one pass through the interceptor produces: the request handed
      down the chain, the response handed back up, and the store after it. */
  datatype Intercepted = Intercepted(forwarded: HttpRequest, response: HttpResponse, store: Store)

  /** The interceptor writes the store exactly when the response carries an
      ETag that differs from the stored one (a missing entry differs from
      every ETag). It compares for difference, not for recency. */
  predicate Refreshes(store: Store, url: string, responseEtag: Option<string>) {
    responseEtag.Some? && GetEtagByUrl(store, url) != responseEtag
  }

  /** The interceptor lambda. `proceed` is the rest of the chain (network
      and HTTP cache), so `proceed(request)` is the response the server side
      gives to exactly the request passed in. */
  function Intercept(store: Store, request: HttpRequest, proceed: HttpRequest -> HttpResponse): (r: Intercepted)
    ensures r.forwarded == request
    ensures r.response == proceed(request)
    ensures Refreshes(store, request.url, proceed(request).etag) ==>
      GetEtagByUrl(r.store, request.url) == proceed(request).etag
    ensures !Refreshes(store, request.url, proceed(request).etag) ==> r.store == store
    ensures forall u :: u != request.url ==> GetEtagByUrl(r.store, u) == GetEtagByUrl(store, u)
  {
    var response := proceed(request);
    var url := request.url;
    var prevEtag := GetEtagByUrl(store, url);
    var responseEtag := response.etag;
    var updated :=
      if responseEtag.Some? && responseEtag != prevEtag then PutOrUpdateEtag(store, url, responseEtag.value)
      else store;
    Intercepted(request, response, updated)
  }

  /** After any response with an ETag, the store holds that ETag for the
      URL; after a response without one, the stored value is untouched. */
  lemma InterceptStoresResponseEtag(store: Store, request: HttpRequest, proceed: HttpRequest -> HttpResponse)
    ensures var e := proceed(request).etag;
      GetEtagByUrl(Intercept(store, request, proceed).store, request.url)
      == (if e.Some? then e else GetEtagByUrl(store, request.url))
  {
  }

  /** Replaying the same exchange changes nothing more. */
  lemma InterceptIdempotent(store: Store, request: HttpRequest, proceed: HttpRequest -> HttpResponse)
    ensures var once := Intercept(store, request, proceed).store;
      Intercept(once, request, proceed).store == once
  {
  }

  /** The directory name of the on-disk HTTP cache under the context's
      cache directory. */
  const HttpCacheName := "http_cache"

  /** The HTTP cache's size budget in bytes: 50 MiB. */
  const HttpCacheMaxSize: int := 50 * 1024 * 1024

  /** The Android context, reduced to what the constructor reads from it. */
  datatype Context = Context(cacheDir: string)

  /** A constructed client, identified by where its HTTP cache lives and
      how large it may grow. */
  datatype Client = Client(cacheParent: string, cacheName: string, cacheMaxSize: int)

  /** The private constructor: an HTTP cache named `http_cache` under the
      context's cache directory, capped at 50 MiB. */
  function NewClient(context: Context): (c: Client)
    ensures c.cacheParent == context.cacheDir && c.cacheName == HttpCacheName
    ensures c.cacheMaxSize == 52428800
  {
    Client(context.cacheDir, HttpCacheName, HttpCacheMaxSize)
  }

  /** The static `instance` field after a call, and what the call returned
      (`Failure` is the NullPointerException thrown when the first call
      passes a null context). */
  datatype Obtained = Obtained(instance: Option<Client>, returned: Result<Client, string>)

  const NullContext := "NullPointerException: context"

  /** `getInstance(context)`. */
  function GetInstance(instance: Option<Client>, context: Option<Context>): (r: Obtained)
    ensures instance.Some? ==> r == Obtained(instance, Success(instance.value))
    ensures instance.None? && context.Some? ==>
      r.returned == Success(NewClient(context.value)) && r.instance == Some(NewClient(context.value))
    ensures instance.None? && context.None? ==> r.returned.Failure? && r.instance.None?
  {
    if instance.None? then
      if context.None? then Obtained(None, Failure(NullContext))
      else
        var created := NewClient(context.value);
        Obtained(Some(created), Success(created))
    else
      Obtained(instance, Success(instance.value))
  }

  /** A run of `getInstance` calls, one per context, from a given state of
      the static field: the final field and what each call returned. */
  datatype Calls = Calls(instance: Option<Client>, returned: seq<Result<Client, string>>)

  function GetInstanceAll(instance: Option<Client>, contexts: seq<Option<Context>>): (r: Calls)
    ensures |r.returned| == |contexts|
    decreases |contexts|
  {
    if |contexts| == 0 then Calls(instance, [])
    else
      var first := GetInstance(instance, contexts[0]);
      var rest := GetInstanceAll(first.instance, contexts[1..]);
      Calls(rest.instance, [first.returned] + rest.returned)
  }

  predicate AllReturn(rs: seq<Result<Client, string>>, c: Client) {
    forall i :: 0 <= i < |rs| ==> rs[i] == Success(c)
  }

  predicate SameOnceReturned(rs: seq<Result<Client, string>>) {
    forall i, j :: 0 <= i < j < |rs| && rs[i].Success? ==> rs[j] == rs[i]
  }

  /** The client is created at most once: once any call has returned a
      client, every later call returns that same client whatever context it
      passes, and an existing instance is what every call returns. */
  lemma {:induction false} GetInstanceCreatesOnce(instance: Option<Client>, contexts: seq<Option<Context>>)
    ensures instance.Some? ==> AllReturn(GetInstanceAll(instance, contexts).returned, instance.value)
    ensures SameOnceReturned(GetInstanceAll(instance, contexts).returned)
    decreases |contexts|
  {
    if |contexts| > 0 {
      var first := GetInstance(instance, contexts[0]);
      var rest := GetInstanceAll(first.instance, contexts[1..]);
      GetInstanceCreatesOnce(first.instance, contexts[1..]);
      var rs := GetInstanceAll(instance, contexts).returned;
      assert rs == [first.returned] + rest.returned;
      if first.returned.Success? {
        assert first.instance == Some(first.returned.value);
        forall k | 0 <= k < |rest.returned|
          ensures rest.returned[k] == first.returned
        {
          assert first.instance.Some?;
          assert rest.returned[k] == Success(first.instance.value);
        }
      }
      if instance.Some? {
        forall i | 0 <= i < |rs|
          ensures rs[i] == Success(instance.value)
        {
          if i > 0 {
            assert rs[i] == rest.returned[i - 1];
          }
        }
      }
      forall i, j | 0 <= i < j < |rs| && rs[i].Success?
        ensures rs[j] == rs[i]
      {
        if i == 0 {
          assert rs[j] == rest.returned[j - 1];
        } else {
          assert rs[i] == rest.returned[i - 1] && rs[j] == rest.returned[j - 1];
        }
      }
    }
  }
}

=== FILE: view_manager.dfy ===
/** `FastImageViewManager`: source validation, the load sequence (load-start,
    cache-only preview, ETag request, reconcile), view deregistration,
    progress fan-out and the force-refresh command. Every operation returns
    the updated state together with the log of what it did; Glide requests
    appear in the log as descriptors, never executed. */
module ViewManager {
  import opened Wrappers
  import opened JavaLang
  import opened Decimal
  import opened EtagStore
  import opened ViewRegistry
  import opened EtagRequester

  const ForceRefreshImage: int := 1
  const ForceRefreshImageName := "forceRefreshImage"
  const InvalidSourcePrefix := "Invalid source prop:"
  const UnsupportedCommandPrefix := "Unsupported command "
  const ViewClassName := "FastImageViewWithUrl"
  const UriKey := "uri"
  const HttpPrefix := "http"

  /** Glide's `GlideUrl`, reduced to its two string forms: `toStringUrl()`
      (the key `load` registers under) and `toString()` (the key
      `onDropViewInstance` deregisters under). They are independent here
      because nothing visible relates them. */
  datatype GlideUrl = GlideUrl(stringUrl: string, cacheKey: string)

  /** Glide `RequestOptions`, opaque. */
  datatype Options = Options(id: nat)

  /** `FastImageSource` as `load` uses it: `getUri().toString()`,
      `getGlideUrl()` and `getSourceForLoad()` (rendered as a string). */
  datatype ImageSource = ImageSource(uri: string, glideUrl: GlideUrl, sourceForLoad: string)

  /** The `source` prop (a `ReadableMap`): its string-or-null entries and
      its `toString()`. */
  datatype Source = Source(entries: map<string, Option<string>>, text: string)

  /** `FastImageViewConverter.getImageSource` and `getOptions`. */
  datatype Converter = Converter(imageSource: Source -> ImageSource, options: (Source, ImageSource) -> Options)

  /** What `getTag()` holds: nothing, a Glide `Request`, or something else. */
  datatype Tag = NoTag | RequestTag | OtherTag

  /** The fields of a `FastImageViewWithUrl` the manager reads or writes. */
  datatype View = View(id: ViewId, source: Option<Source>, glideUrl: Option<GlideUrl>, tag: Tag)

  /** The manager's state: whether `requestManager` is non-null, and the
      `VIEWS_FOR_URLS` registry. */
  datatype Manager = Manager(hasRequestManager: bool, registry: Registry)

  /** A Glide request as built by the `RequestBuilder` chain and passed to
      `into(view)`. `model` is what `load(...)` was given. The fields record
      the builder calls; `options` are applied last and are opaque, so what
      they might override is not modelled. */
  datatype ImageRequest = ImageRequest(
    model: string,
    onlyFromCache: bool,
    signature: Option<string>,
    skipMemoryCache: bool,
    thumbnail: Option<ImageRequest>,
    listenerKey: Option<string>,
    options: Option<Options>)

  /** Events sent to the JS side, addressed to a view. */
  datatype UiEvent = LoadStart | Progress(loaded: int, total: int) | Error(message: string)

  /** One observable step. */
  datatype Action =
    | Emit(view: ViewId, event: UiEvent)
    | ClearRequests(view: ViewId)           // requestManager.clear(view)
    | ClearImage(view: ViewId)              // view.setImageDrawable(null)
    | Expect(key: string)                   // progress module: expect(key, this)
    | Forget(key: string)                   // progress module: forget(key)
    | Into(view: ViewId, request: ImageRequest)
    | RequestEtag(url: string, prevEtag: Option<string>)

  /** The state `loadImage` captures for its ETag callback. */
  datatype Pending = Pending(view: ViewId, url: string, prevEtag: Option<string>, options: Option<Options>, key: Option<string>)

  /** The result of a UI-thread operation: the view and manager after it,
      what it did, and the ETag callback it left waiting (if any). */
  datatype Step = Step(view: View, manager: Manager, log: seq<Action>, pending: Option<Pending>)

  // ---------------------------------------------------------------------
  // Descriptions of logs and requests used by the contracts

  /** No event, no Glide request, no ETag request. */
  predicate Quiet(log: seq<Action>) {
    forall i :: 0 <= i < |log| ==> !log[i].Emit? && !log[i].Into? && !log[i].RequestEtag?
  }

  /** No Glide request and no ETag request. */
  predicate NoImageWork(log: seq<Action>) {
    forall i :: 0 <= i < |log| ==> !log[i].Into? && !log[i].RequestEtag?
  }

  /** A cache-only lookup of `url` under signature `sig`. */
  predicate IsCacheOnly(req: ImageRequest, url: string, sig: string) {
    && req.model == url
    && req.onlyFromCache
    && req.signature == Some(sig)
    && !req.skipMemoryCache
    && req.thumbnail.None?
  }

  /** The request `loadImageWithSignature` issues: a network-capable load
      of `url` that bypasses the memory cache, signed `signature`, with a
      cache-only thumbnail signed `prevSignature` when there is one. */
  predicate IsReconcileRequest(req: ImageRequest, url: string, signature: Option<string>,
                               prevSignature: Option<string>, options: Option<Options>, key: Option<string>) {
    && req.model == url
    && !req.onlyFromCache
    && req.skipMemoryCache
    && req.signature == signature
    && req.options == options
    && req.listenerKey == key
    && (req.thumbnail.Some? <==> prevSignature.Some?)
    && (req.thumbnail.Some? ==>
          && IsCacheOnly(req.thumbnail.value, url, prevSignature.value)
          && req.thumbnail.value.listenerKey.None?
          && req.thumbnail.value.options.None?)
  }

  // ---------------------------------------------------------------------
  // setSrc

  /** `clearView`: clears only when there is a request manager and the
      view's tag is a Glide request. */
  function ClearView(m: Manager, view: View): (log: seq<Action>)
    ensures log == [ClearRequests(view.id)] <==> m.hasRequestManager && view.tag == RequestTag
    ensures log == [] <==> !(m.hasRequestManager && view.tag == RequestTag)
  {
    if m.hasRequestManager && view.tag == RequestTag then [ClearRequests(view.id)] else []
  }

  /** `forget` the key of the URL the view last loaded, if it has one. */
  function ForgetPrevious(view: View): seq<Action> {
    if view.glideUrl.Some? then [Forget(view.glideUrl.value.stringUrl)] else []
  }

  /** The first guard of `setSrc`: no source, no `uri` key, or a `uri` that
      is null or blank. */
  predicate MissingUri(source: Option<Source>) {
    || source.None?
    || UriKey !in source.value.entries
    || IsNullOrEmpty(source.value.entries[UriKey])
  }

  /** The missing-uri branch of `setSrc`: cancel, forget, clear the image;
      nothing is loaded and no event is sent. */
  function ClearMissing(m: Manager, view: View): (log: seq<Action>)
    ensures Quiet(log) && |log| > 0 && log[|log| - 1] == ClearImage(view.id)
  {
    ClearView(m, view) + ForgetPrevious(view) + [ClearImage(view.id)]
  }

  /** The empty-uri branch of `setSrc`: one error event naming the source,
      then cancel, forget, clear the image; nothing is loaded. */
  function RejectInvalid(m: Manager, view: View, source: Source): (log: seq<Action>)
    ensures NoImageWork(log) && |log| >= 2
    ensures log[0].Emit? && log[0].view == view.id && log[0].event.Error?
    ensures InvalidSourcePrefix <= log[0].event.message
    ensures forall i :: 1 <= i < |log| ==> !log[i].Emit?
    ensures log[|log| - 1] == ClearImage(view.id)
  {
    var error := Emit(view.id, Error(InvalidSourcePrefix + source.text));
    var clear := if m.hasRequestManager then [ClearRequests(view.id)] else [];
    [error] + clear + ForgetPrevious(view) + [ClearImage(view.id)]
  }

  /** `setSrc`: stores the source on the view, then either clears the view
      (missing uri), reports an invalid source (the converted uri is empty),
      or loads. */
  function SetSrc(m: Manager, conv: Converter, store: Store, view: View, source: Option<Source>): (r: Step)
    ensures r.view.source == source
    ensures MissingUri(source) ==>
      && r.manager == m && r.pending.None? && r.view.glideUrl == view.glideUrl
      && Quiet(r.log) && |r.log| > 0 && r.log[|r.log| - 1] == ClearImage(view.id)
    ensures !MissingUri(source) && |conv.imageSource(source.value).uri| == 0 ==>
      && r.manager == m && r.pending.None? && r.view.glideUrl == view.glideUrl
      && NoImageWork(r.log) && |r.log| >= 2
      && r.log[0].Emit? && r.log[0].view == view.id && r.log[0].event.Error?
      && InvalidSourcePrefix <= r.log[0].event.message
      && (forall i :: 1 <= i < |r.log| ==> !r.log[i].Emit?)
      && r.log[|r.log| - 1] == ClearImage(view.id)
    ensures !MissingUri(source) && |conv.imageSource(source.value).uri| > 0 ==>
      r == Load(m, conv, store, view.(source := source), source.value)
  {
    var view' := view.(source := source);
    if MissingUri(source) then
      Step(view', m, ClearMissing(m, view), None)
    else if |conv.imageSource(source.value).uri| == 0 then
      Step(view', m, RejectInvalid(m, view, source.value), None)
    else
      Load(m, conv, store, view', source.value)
  }

  /** A null source, a source without `uri`, and a null or blank `uri` are
      treated identically: the same actions, whichever of them it is. */
  lemma MissingUriHandledAlike(m: Manager, conv: Converter, store: Store, view: View, s1: Option<Source>, s2: Option<Source>)
    requires MissingUri(s1) && MissingUri(s2)
    ensures SetSrc(m, conv, store, view, s1).log == SetSrc(m, conv, store, view, s2).log
    ensures SetSrc(m, conv, store, view, s1).manager == SetSrc(m, conv, store, view, s2).manager
  {
  }

  /** A source counts as missing exactly when its `uri` is absent, null, or
      made only of characters at or below U+0020. */
  lemma MissingUriMeansBlank(source: Option<Source>)
    ensures MissingUri(source) <==>
      || source.None?
      || UriKey !in source.value.entries
      || source.value.entries[UriKey].None?
      || AllTrimmable(source.value.entries[UriKey].value)
  {
  }

  // ---------------------------------------------------------------------
  // load, loadImage, loadImageWithSignature

  /** The direct load `load` issues for a URL that does not start with
      "http" (files, content, resources, data URIs). */
  function DirectRequest(img: ImageSource, options: Options, key: string): (req: ImageRequest)
    ensures req.model == img.sourceForLoad && !req.onlyFromCache && req.signature.None?
    ensures req.thumbnail.None? && req.listenerKey == Some(key)
    ensures req.options == Some(options) && !req.skipMemoryCache
  {
    ImageRequest(img.sourceForLoad, false, None, false, None, Some(key), Some(options))
  }

  /** `load`: record the URL on the view, register the view under the key,
      emit load-start, then load directly or through the ETag protocol.
      Without a request manager nothing is loaded. */
  function Load(m: Manager, conv: Converter, store: Store, view: View, source: Source): (r: Step)
    ensures var img := conv.imageSource(source); var key := img.glideUrl.stringUrl;
      && r.view == view.(glideUrl := Some(img.glideUrl))
      && r.manager == m.(registry := Register(m.registry, key, view.id))
      && |r.log| >= 2 && r.log[0] == Expect(key) && r.log[1] == Emit(view.id, LoadStart)
      && (forall i :: 2 <= i < |r.log| ==> !r.log[i].Emit?)
      && (!m.hasRequestManager ==> |r.log| == 2 && r.pending.None?)
      && (m.hasRequestManager && !(HttpPrefix <= key) ==>
            && |r.log| == 3 && r.pending.None?
            && r.log[2] == Into(view.id, DirectRequest(img, conv.options(source, img), key)))
      && (m.hasRequestManager && HttpPrefix <= key ==>
            && r.pending == Some(Pending(view.id, key, GetEtagByUrl(store, key),
                                         Some(conv.options(source, img)), Some(key)))
            && r.log[|r.log| - 1] == RequestEtag(key, GetEtagByUrl(store, key)))
  {
    var img := conv.imageSource(source);
    var glideUrl := img.glideUrl;
    var view' := view.(glideUrl := Some(glideUrl));
    var key := glideUrl.stringUrl;
    var m' := m.(registry := Register(m.registry, key, view.id));
    var started := [Expect(key), Emit(view.id, LoadStart)];
    var options := conv.options(source, img);
    if !m.hasRequestManager then
      Step(view', m', started, None)
    else
      var url := img.glideUrl.stringUrl;
      if !(HttpPrefix <= url) then
        Step(view', m', started + [Into(view.id, DirectRequest(img, options, key))], None)
      else
        var issued := LoadImage(m, store, view.id, url, Some(options), Some(key));
        Step(view', m', started + issued.log, Some(issued.pending))
  }

  /** What `loadImage` does before its callback runs. */
  datatype Issued = Issued(log: seq<Action>, pending: Pending)

  /** `loadImage`: a cache-only preview signed with the stored ETag when
      there is one (and a request manager), then the ETag request
      conditioned on that same ETag. */
  function LoadImage(m: Manager, store: Store, view: ViewId, url: string, options: Option<Options>, key: Option<string>): (r: Issued)
    ensures var prevEtag := GetEtagByUrl(store, url);
      && r.pending == Pending(view, url, prevEtag, options, key)
      && 1 <= |r.log| <= 2 && r.log[|r.log| - 1] == RequestEtag(url, prevEtag)
      && (|r.log| == 2 <==> prevEtag.Some? && m.hasRequestManager)
      && (|r.log| == 2 ==>
            && r.log[0].Into? && r.log[0].view == view
            && IsCacheOnly(r.log[0].request, url, prevEtag.value)
            && r.log[0].request.listenerKey == key && r.log[0].request.options == options)
  {
    var prevEtag := GetEtagByUrl(store, url);
    // `loadImage` always attaches a listener to the preview; `key` is never
    // `None` here, since `load` is the only caller and passes `Some(key)`.
    var preview :=
      if prevEtag.Some? && m.hasRequestManager then
        [Into(view, ImageRequest(url, true, prevEtag, false, None, key, options))]
      else [];
    Issued(preview + [RequestEtag(url, prevEtag)], Pending(view, url, prevEtag, options, key))
  }

  /** `loadImageWithSignature` (the part run on the UI thread): clear the
      view, then load `url` with the memory cache skipped, the signature,
      the previous-signature thumbnail and the listener as described by
      `IsReconcileRequest`. Without a request manager nothing is issued (the
      Java code's `Log.e` call is not modelled). */
  function Reconcile(m: Manager, view: ViewId, url: string, signature: Option<string>,
                     prevSignature: Option<string>, options: Option<Options>, key: Option<string>): (log: seq<Action>)
    ensures !m.hasRequestManager ==> log == []
    ensures m.hasRequestManager ==>
      && |log| == 2 && log[0] == ClearRequests(view)
      && log[1].Into? && log[1].view == view
      && IsReconcileRequest(log[1].request, url, signature, prevSignature, options, key)
  {
    if !m.hasRequestManager then []
    else
      var thumbnail :=
        if prevSignature.Some? then Some(ImageRequest(url, true, prevSignature, false, None, None, None))
        else None;
      [ClearRequests(view), Into(view, ImageRequest(url, false, signature, true, thumbnail, key, options))]
  }

  /** The ETag callback `loadImage` registers: `onEtag(e)` reconciles with
      signature `e` over the previous ETag; `onError` reconciles with the
      previous ETag for both, so an error never stops the load and never
      reaches the view as an event. */
  function Resume(m: Manager, p: Pending, cb: Callback): (log: seq<Action>)
    ensures forall i :: 0 <= i < |log| ==> !log[i].Emit?
    ensures m.hasRequestManager ==>
      && |log| == 2 && log[0] == ClearRequests(p.view) && log[1].Into? && log[1].view == p.view
      && IsReconcileRequest(log[1].request, p.url, if cb.OnEtag? then cb.etag else p.prevEtag,
                            p.prevEtag, p.options, p.key)
    ensures !m.hasRequestManager ==> log == []
  {
    match cb
    case OnEtag(etag) => Reconcile(m, p.view, p.url, etag, p.prevEtag, p.options, p.key)
    case OnError(_) => Reconcile(m, p.view, p.url, p.prevEtag, p.prevEtag, p.options, p.key)
  }

  // ---------------------------------------------------------------------
  // onDropViewInstance

  datatype Dropped = Dropped(manager: Manager, log: seq<Action>)

  /** `onDropViewInstance`: clear the view, then, if it has a URL, forget
      and deregister it under `glideUrl.toString()`. */
  function OnDropViewInstance(m: Manager, view: View): (r: Dropped)
    ensures r.manager.hasRequestManager == m.hasRequestManager
    ensures view.glideUrl.None? ==> r.manager == m && r.log == ClearView(m, view)
    ensures view.glideUrl.Some? ==>
      var key := view.glideUrl.value.cacheKey;
      && r.log == ClearView(m, view) + [Forget(key)]
      && (forall k :: k != key ==> Listeners(r.manager.registry, k) == Listeners(m.registry, k))
      && Listeners(r.manager.registry, key) == RemoveFirst(Listeners(m.registry, key), view.id)
      && (Valid(m.registry) ==>
            && Valid(r.manager.registry)
            && Subscribers(r.manager.registry, key) == Subscribers(m.registry, key) - {view.id})
  {
    if view.glideUrl.Some? then
      var key := view.glideUrl.value.cacheKey;
      Dropped(m.(registry := Drop(m.registry, key, view.id)), ClearView(m, view) + [Forget(key)])
    else
      Dropped(m, ClearView(m, view))
  }

  // ---------------------------------------------------------------------
  // onProgress

  /** One progress event per listed view, in list order, carrying the
      `(int)`-narrowed byte counts. */
  function ProgressEvents(views: seq<ViewId>, loaded: int, total: int): (log: seq<Action>)
    ensures |log| == |views|
    ensures forall i :: 0 <= i < |log| ==> log[i] == Emit(views[i], Progress(loaded, total))
  {
    if |views| == 0 then [] else [Emit(views[0], Progress(loaded, total))] + ProgressEvents(views[1..], loaded, total)
  }

  /** `onProgress`: fan one transfer's progress out to every view listed
      under the key; nothing when the key is absent. */
  function OnProgress(m: Manager, key: string, bytesRead: int, expectedLength: int): (log: seq<Action>)
    requires IsLong(bytesRead) && IsLong(expectedLength)
    ensures |log| == |Listeners(m.registry, key)|
    ensures forall i :: 0 <= i < |log| ==>
      log[i] == Emit(Listeners(m.registry, key)[i], Progress(LongToInt(bytesRead), LongToInt(expectedLength)))
  {
    ProgressEvents(Listeners(m.registry, key), LongToInt(bytesRead), LongToInt(expectedLength))
  }

  /** How many events a log addresses to `v`. */
  function EventsFor(log: seq<Action>, v: ViewId): nat {
    if |log| == 0 then 0 else (if log[0].Emit? && log[0].view == v then 1 else 0) + EventsFor(log[1..], v)
  }

  lemma {:induction false} ProgressEventsFor(views: seq<ViewId>, loaded: int, total: int, v: ViewId)
    ensures EventsFor(ProgressEvents(views, loaded, total), v) == Occurrences(views, v)
  {
    if |views| > 0 {
      var log := ProgressEvents(views, loaded, total);
      assert log[1..] == ProgressEvents(views[1..], loaded, total);
      ProgressEventsFor(views[1..], loaded, total, v);
    }
  }

  /** In a valid registry every subscriber of the key receives exactly one
      progress event and no other view receives any. */
  lemma OnProgressReachesEachSubscriberOnce(m: Manager, key: string, bytesRead: int, expectedLength: int, v: ViewId)
    requires IsLong(bytesRead) && IsLong(expectedLength)
    requires Valid(m.registry)
    ensures EventsFor(OnProgress(m, key, bytesRead, expectedLength), v) == if v in Subscribers(m.registry, key) then 1 else 0
  {
    var views := Listeners(m.registry, key);
    ProgressEventsFor(views, LongToInt(bytesRead), LongToInt(expectedLength), v);
    SubscribersAreListed(m.registry, key, v);
    if key in m.registry {
      OccurrencesNoDuplicates(views, v);
    }
  }

  // ---------------------------------------------------------------------
  // Commands

  /** `getCommandsMap`. */
  function CommandsMap(): (r: map<string, int>)
    ensures r.Keys == {ForceRefreshImageName} && r[ForceRefreshImageName] == ForceRefreshImage
  {
    map[ForceRefreshImageName := ForceRefreshImage]
  }

  /** `receiveCommand`: the force-refresh command reloads the view's current
      source (skipping `setSrc`'s checks) or does nothing without one; any
      other id throws `IllegalArgumentException`. */
  function ReceiveCommand(m: Manager, conv: Converter, store: Store, view: View, commandId: int): (r: Result<Step, string>)
    ensures commandId == ForceRefreshImage && view.source.None? ==> r == Success(Step(view, m, [], None))
    ensures commandId == ForceRefreshImage && view.source.Some? ==>
      r == Success(Load(m, conv, store, view, view.source.value))
    ensures commandId != ForceRefreshImage ==>
      && r.Failure? && UnsupportedCommandPrefix <= r.error
      && |UnsupportedCommandPrefix| + |IntToString(commandId)| <= |r.error|
      && ParseInt(r.error[|UnsupportedCommandPrefix|..|UnsupportedCommandPrefix| + |IntToString(commandId)|]) == Some(commandId)
  {
    if commandId == ForceRefreshImage then
      if view.source.Some? then Success(Load(m, conv, store, view, view.source.value))
      else Success(Step(view, m, [], None))
    else
      var id := IntToString(commandId);
      var message := UnsupportedCommandPrefix + id + " received by " + ViewClassName + ".";
      IntToStringRoundTrip(commandId);
      assert message[|UnsupportedCommandPrefix|..|UnsupportedCommandPrefix| + |id|] == id;
      Failure(message)
  }

  /** The commands the manager advertises are exactly the ones it accepts. */
  lemma CommandsMapMatchesReceiveCommand(m: Manager, conv: Converter, store: Store, view: View, commandId: int)
    ensures ReceiveCommand(m, conv, store, view, commandId).Success? <==> commandId in CommandsMap().Values
  {
  }
}

=== FILE: view_registry.dfy ===
/** `VIEWS_FOR_URLS`: for each request key, the list of views currently
    interested in that key's byte-progress events. The Java code uses a
    `WeakHashMap`; here it is an ordinary map from key to a list of view
    ids. */
module ViewRegistry {

  /** The identity of a view (`FastImageViewWithUrl` compares by reference). */
  type ViewId = nat

  type Registry = map<string, seq<ViewId>>

  function Occurrences(s: seq<ViewId>, v: ViewId): nat {
    if |s| == 0 then 0 else (if s[0] == v then 1 else 0) + Occurrences(s[1..], v)
  }

  predicate NoDuplicates(s: seq<ViewId>) {
    forall i, j :: 0 <= i < j < |s| ==> s[i] != s[j]
  }

  /** The shape every reachable registry has: no empty list is kept, and no
      view is listed twice under one key. */
  predicate Valid(reg: Registry) {
    forall k :: k in reg ==> |reg[k]| > 0 && NoDuplicates(reg[k])
  }

  /** The views listed under `key`, in registration order (none if absent). */
  function Listeners(reg: Registry, key: string): seq<ViewId> {
    if key in reg then reg[key] else []
  }

  /** The views listed under `key`, as a set. */
  function Subscribers(reg: Registry, key: string): set<ViewId> {
    set i | 0 <= i < |Listeners(reg, key)| :: Listeners(reg, key)[i]
  }

  /** In a list without duplicates each view occurs once or not at all. */
  lemma {:induction false} OccurrencesNoDuplicates(s: seq<ViewId>, v: ViewId)
    requires NoDuplicates(s)
    ensures Occurrences(s, v) == if v in s then 1 else 0
  {
    if |s| > 0 {
      OccurrencesNoDuplicates(s[1..], v);
      assert s[0] == v ==> v !in s[1..];
      assert v in s <==> s[0] == v || v in s[1..];
    }
  }

  lemma OccurrencesValid(reg: Registry, key: string, v: ViewId)
    requires key in reg
    ensures Valid(reg) ==> Occurrences(reg[key], v) == if v in reg[key] then 1 else 0
  {
    if Valid(reg) {
      OccurrencesNoDuplicates(reg[key], v);
    }
  }

  lemma SubscribersAreListed(reg: Registry, key: string, v: ViewId)
    ensures v in Subscribers(reg, key) <==> v in Listeners(reg, key)
  {
  }

  /** The registration step of `load`: append the view to the key's list
      unless it is already there; create the list if the key is new. */
  function Register(reg: Registry, key: string, v: ViewId): (r: Registry)
    ensures key in r && v in r[key]
    ensures forall k :: k != key ==> Listeners(r, k) == Listeners(reg, k)
    ensures r.Keys == reg.Keys + {key}
    ensures key in reg ==> |reg[key]| <= |r[key]| && r[key][..|reg[key]|] == reg[key]
    ensures key in reg && v in reg[key] ==> r == reg
    ensures Valid(reg) ==> Valid(r) && Occurrences(r[key], v) == 1
  {
    var r :=
      if key in reg && v !in reg[key] then reg[key := reg[key] + [v]]
      else if key !in reg then reg[key := [v]]
      else reg;
    assert r[key][..|Listeners(reg, key)|] == Listeners(reg, key);
    assert Valid(reg) ==> Valid(r);
    OccurrencesValid(r, key, v);
    r
  }

  /** Registering the same view under the same key again changes nothing. */
  lemma RegisterIdempotent(reg: Registry, key: string, v: ViewId)
    ensures Register(Register(reg, key, v), key, v) == Register(reg, key, v)
  {
  }

  /** Registration adds exactly the view to the key's subscribers. */
  lemma RegisterSubscribers(reg: Registry, key: string, v: ViewId)
    ensures Subscribers(Register(reg, key, v), key) == Subscribers(reg, key) + {v}
  {
    var r := Register(reg, key, v);
    forall w
      ensures w in Subscribers(r, key) <==> w in Subscribers(reg, key) + {v}
    {
      SubscribersAreListed(r, key, w);
      SubscribersAreListed(reg, key, w);
      if key in reg && w in reg[key] {
        var i :| 0 <= i < |reg[key]| && reg[key][i] == w;
        assert r[key][i] == w;
      }
      if w in r[key] && w != v && key in reg {
        var i :| 0 <= i < |r[key]| && r[key][i] == w;
        assert i < |reg[key]| ==> reg[key][i] == w;
      }
    }
  }

  /** The position of the first occurrence of `v` in `s`. */
  function FirstIndex(s: seq<ViewId>, v: ViewId): (i: nat)
    requires v in s
    ensures i < |s| && s[i] == v && v !in s[..i]
  {
    if s[0] == v then 0
    else
      var j := FirstIndex(s[1..], v);
      assert s[..j + 1] == [s[0]] + s[1..][..j];
      j + 1
  }

  /** `List.remove(Object)`: removes the first occurrence, if any, and keeps
      the order of the rest (`RemoveFirstSplice` states the order). */
  function RemoveFirst(s: seq<ViewId>, v: ViewId): (r: seq<ViewId>)
    ensures v !in s ==> r == s
    ensures v in s ==> |r| == |s| - 1
    ensures forall w :: w != v ==> Occurrences(r, w) == Occurrences(s, w)
    ensures v in s ==> Occurrences(r, v) == Occurrences(s, v) - 1
  {
    if |s| == 0 then []
    else if s[0] == v then
      assert s == [s[0]] + s[1..];
      s[1..]
    else
      assert s == [s[0]] + s[1..];
      [s[0]] + RemoveFirst(s[1..], v)
  }

  /** Cutting position `j` out of `t` and putting `x` in front is cutting
      position `j + 1` out of `[x] + t`. */
  lemma ConsSplice(x: ViewId, t: seq<ViewId>, j: nat)
    requires j < |t|
    ensures [x] + (t[..j] + t[j + 1..]) == ([x] + t)[..j + 1] + ([x] + t)[j + 2..]
  {
    assert ([x] + t)[..j + 1] == [x] + t[..j];
    assert ([x] + t)[j + 2..] == t[j + 1..];
  }

  /** When `v` is listed, removal cuts out exactly its first occurrence and
      keeps everything before and after it in order. */
  lemma {:induction false} RemoveFirstSplice(s: seq<ViewId>, v: ViewId)
    requires v in s
    ensures RemoveFirst(s, v) == s[..FirstIndex(s, v)] + s[FirstIndex(s, v) + 1..]
  {
    if s[0] != v {
      var t := s[1..];
      assert s == [s[0]] + t;
      assert v in t;
      var j := FirstIndex(t, v);
      RemoveFirstSplice(t, v);
      assert RemoveFirst(s, v) == [s[0]] + RemoveFirst(t, v);
      assert FirstIndex(s, v) == j + 1;
      ConsSplice(s[0], t, j);
    }
  }

  /** Removal keeps every other view and adds none. */
  lemma {:induction false} RemoveFirstMembers(s: seq<ViewId>, v: ViewId, w: ViewId)
    ensures w in RemoveFirst(s, v) ==> w in s
    ensures w != v ==> (w in RemoveFirst(s, v) <==> w in s)
  {
    if |s| > 0 && s[0] != v {
      RemoveFirstMembers(s[1..], v, w);
      assert RemoveFirst(s, v) == [s[0]] + RemoveFirst(s[1..], v);
      assert w in s <==> w == s[0] || w in s[1..];
    } else if |s| > 0 {
      assert w in s <==> w == s[0] || w in s[1..];
    }
  }

  /** Removing from a duplicate-free list keeps it duplicate-free and leaves
      no copy of the removed view. */
  lemma {:induction false} RemoveFirstNoDuplicates(s: seq<ViewId>, v: ViewId)
    requires NoDuplicates(s)
    ensures NoDuplicates(RemoveFirst(s, v)) && v !in RemoveFirst(s, v)
  {
    if |s| > 0 && s[0] != v {
      var tail := RemoveFirst(s[1..], v);
      var r := RemoveFirst(s, v);
      RemoveFirstNoDuplicates(s[1..], v);
      assert s[0] !in s[1..];
      RemoveFirstMembers(s[1..], v, s[0]);
      assert r == [s[0]] + tail;
      forall i, j | 0 <= i < j < |r|
        ensures r[i] != r[j]
      {
        if i == 0 {
          assert r[j] == tail[j - 1];
        } else {
          assert r[i] == tail[i - 1] && r[j] == tail[j - 1];
        }
      }
    } else if |s| > 0 {
      assert s[0] !in s[1..];
    }
  }

  /** The deregistration step of `onDropViewInstance`: remove the view from
      the key's list and delete the key once its list is empty. */
  function Drop(reg: Registry, key: string, v: ViewId): (r: Registry)
    ensures forall k :: k != key ==> Listeners(r, k) == Listeners(reg, k)
    ensures Listeners(r, key) == RemoveFirst(Listeners(reg, key), v)
    ensures key in r ==> key in reg && |r[key]| > 0
    ensures Valid(reg) ==> Valid(r) && v !in Listeners(r, key)
    ensures Valid(reg) ==> Subscribers(r, key) == Subscribers(reg, key) - {v}
  {
    if key in reg then
      var rest := RemoveFirst(reg[key], v);
      var r := if |rest| == 0 then reg - {key} else reg[key := rest];
      DropValid(reg, key, v, rest, r);
      DropSubscribers(reg, key, v, rest, r);
      r
    else
      reg
  }

  lemma DropValid(reg: Registry, key: string, v: ViewId, rest: seq<ViewId>, r: Registry)
    requires key in reg && rest == RemoveFirst(reg[key], v)
    requires r == if |rest| == 0 then reg - {key} else reg[key := rest]
    ensures Valid(reg) ==> Valid(r) && v !in Listeners(r, key)
  {
    if Valid(reg) {
      RemoveFirstNoDuplicates(reg[key], v);
    }
  }

  lemma DropSubscribers(reg: Registry, key: string, v: ViewId, rest: seq<ViewId>, r: Registry)
    requires key in reg && rest == RemoveFirst(reg[key], v)
    requires r == if |rest| == 0 then reg - {key} else reg[key := rest]
    ensures Valid(reg) ==> Subscribers(r, key) == Subscribers(reg, key) - {v}
  {
    if Valid(reg) {
      assert Listeners(r, key) == rest;
      forall w
        ensures w in Subscribers(r, key) <==> w in Subscribers(reg, key) - {v}
      {
        SubscribersAreListed(r, key, w);
        SubscribersAreListed(reg, key, w);
        RemoveFirstMembers(reg[key], v, w);
        RemoveFirstNoDuplicates(reg[key], v);
      }
    }
  }

  /** Dropping twice is the same as dropping once. */
  lemma DropIdempotent(reg: Registry, key: string, v: ViewId)
    requires Valid(reg)
    ensures Drop(Drop(reg, key, v), key, v) == Drop(reg, key, v)
  {
  }
}

=== FILE: wrappers.dfy ===
/** Small helper datatypes shared by every module of the model.
    `Option` stands for a Java reference that may be null; `Result` stands
    for a call that either returns or throws. */
module Wrappers {

  /** A nullable value: `None` is Java's `null`. */
  datatype Option<+T> = None | Some(value: T) {

    /** The wrapped value, or `default` when there is none. */
    function GetOr(default: T): T {
      match this
      case Some(v) => v
      case None => default
    }
  }

  /** Either a returned value or the message of a thrown exception. */
  datatype Result<+R, +E> = Success(value: R) | Failure(error: E)
}
